=== FILE: README.md ===
# Contribution graph aggregator

This project models the aggregator inside the `ContributionGraph` class of `script.js`.
The aggregator turns career activity data into the years × months grid of the
portfolio's contribution graph. The data is a list of categories; each category has a
type and items, and each item has a name and date ranges written "Mon-YYYY". The model
covers:

- `parseDate`, with the `split('-')`, `indexOf` and global `parseInt` it relies on
  (`Dates`);
- the level bucket table (`Levels`);
- the reference aggregation: what each cell must hold, and the lemmas about it
  (`Aggregation`);
- the `ContributionGraph` object itself (`Graph`). Its fields are `startYear`,
  `endYear`, `contributionData`, `rawData` and `activeFilters`. Its methods are
  `addContributions`, the three passes of `generateContributionData`, and the change
  handler of a filter checkbox;
- the focus-index arithmetic of `handleKeyNavigation` (`KeyNavigation`).

The imperative code is imperative Dafny. `addContributions` is a method with the
source's month-by-month `while` loop, proved against `Covers`, the months a range spans.
`generateContributionData` is a method whose reset, replay and level passes keep the
source's nested loops; each pass is proved against its own specification (the empty
cell, the replayed records, `Level`). The constructor, `generateContributionData` and
the filter handler are proved against `ExpectedCell`, the pure reference: a cell's
count is the number of (active category, item, date range) triples whose range covers
the cell; its activities are one `{name, type}` record per such triple, in data order;
its level is `Level(count)`. The lemmas about `ExpectedCell` prove what regeneration
promises: activating or deactivating a type moves counts in the expected direction,
levels are monotone, and unticking then ticking a type gives back exactly the same grid.

Differences from the source, in the model's terms:

- `contributionData[year][month]` is one map keyed by the pair `(year, month)`.
- The field `type` is called `kind`, because `type` is a Dafny keyword.
- A null end date is `None`.
- A parse result of `null`, and a `parseInt` result of `NaN`, are both `None`.
- `parseInt` is modelled beyond "leading decimal digits". Like the JavaScript builtin,
  the model skips leading white space, reads one sign, switches to base 16 after `0x`,
  and reads the longest run of digits that follows. So the year parts of "Jan- 2020"
  and "Jan-+2020" both read as 2020, as they do in a browser.
- `split('-')` keeps all its pieces. `parseDate` uses the first two. When there is no
  second piece, the year is `parseInt(undefined)`, which is `NaN`.

## Model

| member | source | states |
|---|---|---|
| Dates.Split | script.js:171 | `split('-')` gives at least one piece, and no piece contains the separator |
| Dates.JoinSplit | script.js:171 | joining the pieces with the separator gives back the original string: splitting loses nothing |
| Dates.SplitJoin | script.js:171 | splitting the join of separator-free pieces gives back exactly those pieces, so `[monthStr, yearStr]` are what was written around the first `-` |
| Dates.IndexOf | script.js:172 | `indexOf` is -1 exactly when the value is absent; otherwise it is the first position holding the value |
| Dates.TrimStart | script.js:173 | `parseInt` skips exactly the leading white space: every dropped character is white space, and the rest is a suffix of the input that does not start with white space |
| Dates.LeadingDigits | script.js:173 | the digits `parseInt` reads are a prefix of the text, all digits, and as long as possible |
| Dates.ParseIntString | script.js:173 | `parseInt` gives a negative number only if the text has a minus sign |
| Dates.ParseIntNaN | script.js:173 | `parseInt` is `NaN` exactly when no digit follows the leading white space, the one optional sign and, in base 16, the `0x` |
| Dates.ParseIntDecimal | script.js:173 | decimal digits after any white space and one optional sign are read as their value, negated after `-`, whatever text follows, provided it does not continue the digits or turn a lone `0` into a `0x` prefix |
| Dates.ParseIntSkipsExamples | script.js:173 | `parseInt(" 2020")` and `parseInt("+2020")` are both 2020, the year parts of "Jan- 2020" and "Jan-+2020" |
| Dates.ParseIntStopsExample | script.js:173 | `parseInt("2020abc")` is 2020: reading stops at the first non-digit |
| Dates.ParseIntHexExample | script.js:173 | `parseInt("0x7E4")` is 2020: `0x` switches to base 16 |
| Dates.ParseIntNaNExample | script.js:173 | `parseInt("abc")` is `NaN` |
| Dates.UndefinedIsNaN | script.js:171-175 | `parseInt(undefined)`, that is `parseInt("undefined")`, is `NaN`, so a date without `-` is rejected |
| Dates.ParseIntOfDecimal | script.js:173 | `parseInt` reads back the decimal rendering of any natural number, whatever text follows, provided it does not continue the digits or turn a lone `0` into a `0x` prefix |
| Dates.ParseDate | script.js:169-181 | a parsed year is never negative: the year part cannot contain `-` |
| Dates.ParseDateMeaning | script.js:169-181 | `parseDate` returns null exactly when the month part is not one of the twelve abbreviations or the year part is `NaN`; otherwise the month is the abbreviation's index and the year is what `parseInt` read |
| Dates.MonthsShortDistinct | script.js:11-14 | the twelve abbreviations are distinct, so `indexOf` finds the intended month |
| Dates.ParseFormatDate | script.js:169-181 | parsing "Mon-YYYY" built from any month and natural year gives back that month and year |
| Levels.Level | script.js:109-134 | the level is 0 to 9; it is 0 exactly for count 0; it equals the count for counts up to 5 |
| Levels.LevelIsThresholdsReached | script.js:109-134 | the level of a count is how many of the thresholds 1, 2, 3, 4, 5, 6, 8, 11, 16 it reaches, an independent definition of the `if` chain |
| Levels.LevelMonotone | script.js:109-134 | more contributions never give a lower level |
| Levels.LevelBucket | script.js:109-134 | level k is shown for exactly the counts from the k-th threshold up to, but not including, the next one |
| Aggregation.ExpectedCell | script.js:84-134 | the reference cell: its count is the number of date ranges of active categories that cover it and equals the length of its activity list; its level is `Level(count)`; every activity has an active type |
| Aggregation.CategoriesActivitiesCount | script.js:97-106 | replaying the data adds one activity record per covering range of an active category, so `activities.length == count` |
| Aggregation.RangesActivitiesAre | script.js:153-157 | every record an item adds is `{name: item.name, type: category.type}` |
| Aggregation.ActivitiesAreActive | script.js:98 | categories whose type is not in `activeFilters` contribute no record |
| Aggregation.CoverCountInactive | script.js:98 | removing an inactive category from the data changes no count |
| Aggregation.CoverCountSplit | script.js:235-244 | with type t active, a cell's count is its count without t plus its count from t alone |
| Aggregation.CoverCountMonotone | script.js:235-244 | activating more types never lowers a count |
| Aggregation.LevelMonotoneInFilters | script.js:235-244 | activating more types never lowers a level |
| Aggregation.UnparsedRangeCoversNothing | script.js:145 | a range whose start, or whose given end, does not parse covers no cell |
| Aggregation.InvertedRangeCoversNothing | script.js:150 | a range that starts after it ends covers no cell |
| Aggregation.BeforeYearsCoversNoCell | script.js:151 | a range that ends before `startYear` covers no month of any year from `startYear` on |
| Aggregation.AfterYearsCoversNoCell | script.js:151 | a range that starts after `endYear` covers no month of any year up to `endYear` |
| Graph.OutOfYearsCoversNoCell | script.js:150-158 | a range wholly outside the graph's years covers no cell of the grid, so `addContributions` changes nothing for it |
| Aggregation.FirstQuarter2020 | script.js:137-167 | "Jan-2020" to "Mar-2020" covers exactly January to March 2020 |
| Aggregation.OngoingSinceJune2024 | script.js:139 | "Jun-2024" with a null end and `endYear` 2025 covers June 2024 through December 2025 |
| Aggregation.UnknownMonthCoversNothing | script.js:175-178 | "Foo-2020" is rejected and covers nothing |
| Aggregation.SingleProjectScenario | script.js:84-134 | one project "X" from "Jan-2021" to "Feb-2021": those two cells have count 1, level 1 and the single record `{X, Project}`; every other cell is empty |
| Graph.MonthOrder | script.js:150 | the loop guard `year < end.year \|\| (year == end.year && month <= end.month)` is the order of absolute months |
| Graph.Visit | script.js:151-158 | a visited month inside the year range gets one more record, and the walk's invariant moves on by a month |
| Graph.Pass | script.js:151 | a visited month outside the year range changes no cell |
| Graph.WalkDone | script.js:150-166 | after the walk, exactly the cells the range covers hold the new record, and the grid stays well formed |
| Graph.RangeStep | script.js:100-104 | one `addContributions` call of the replay extends every cell by exactly the range's record |
| Graph.LevelsDone | script.js:108-134 | after the level pass, every cell is the reference cell |
| Graph.GeneratedUnique | script.js:84-135 | there is only one fully generated grid for given data, filters and years |
| Graph.ContributionGraph.constructor | script.js:4-17 | `startYear` is `config.startYear \|\| 1990` and `endYear` is `config.endYear \|\| 2025`, so a missing or zero year keeps the default (script.js:64-65); the loaded data is kept, every type is active, and the grid is generated (script.js:25-27, 63-75) |
| Graph.ContributionGraph.AddContributions | script.js:137-167 | each cell the range covers gets `count + 1` and the record `{name, type}` appended; every other cell is unchanged; an unparsable start changes nothing; every cell still has as many records as its count. A range covers the months from its start to its end inclusive, and a null end stands for December of `endYear` (script.js:139, 147-166) |
| Graph.ContributionGraph.GenerateContributionData | script.js:84-135 | afterwards every cell of the year range is the reference cell for the data and active filters; running it on a grid that is already current changes nothing |
| Graph.ContributionGraph.ResetGrid | script.js:85-95 | afterwards the grid has every cell of the year range, and no other, each `{level: 0, count: 0, activities: []}` |
| Graph.ContributionGraph.ReplayData | script.js:97-106 | afterwards each cell holds, in data order, the records of every covering range of every active category |
| Graph.ContributionGraph.ComputeLevels | script.js:108-134 | afterwards each cell has the level of its count, and nothing else changed |
| Graph.ContributionGraph.OnFilterChange | script.js:235-244 | the type is added or removed; the grid is regenerated; unticking a type lowers each count by exactly that type's contribution |
| Graph.ContributionGraph.UncheckThenCheck | script.js:235-244 | unticking a type and ticking it again gives back exactly the same filters and grid |
| KeyNavigation.NextIndex | script.js:583-610 | the new index stays within the squares; Home gives 0; End gives the last square; other keys change nothing; Left and Up never move forward; Right and Down never move back |
| KeyNavigation.SquareIndex | script.js:430-459 | the square of (year, month) is at row `month`, column `year - startYear`, in document order |
| KeyNavigation.SquareAt | script.js:430-459 | every index of the grid is the square of exactly one (year, month) in range |
| KeyNavigation.SquareAtIndex | script.js:430-459 | going from a square to its index and back gives the same (year, month) |
| KeyNavigation.ArrowRightOnGrid | script.js:590-593 | ArrowRight goes to the next year in the month row; from the last year it goes to the first year of the next month; the last square stays |
| KeyNavigation.ArrowLeftOnGrid | script.js:586-589 | ArrowLeft goes to the previous year; from the first year it goes to the last year of the previous month; the first square stays |
| KeyNavigation.ArrowDownOnGrid | script.js:598-601 | ArrowDown goes to the next month of the same year; from December it goes to the last square |
| KeyNavigation.ArrowUpOnGrid | script.js:594-597 | ArrowUp goes to the previous month of the same year; from January it goes to the first square, not to the same year |
| KeyNavigation.RightThenLeft | script.js:586-593 | ArrowLeft undoes ArrowRight everywhere except on the last square |
| KeyNavigation.DownThenUp | script.js:594-601 | ArrowUp undoes ArrowDown wherever the move down was not clamped |

## Left out

- `loadRealData` (script.js:46-82) is not modelled. The fetch, the fallback to the local file, JSON parsing and the `jsonData.data || jsonData` choice are I/O. The constructor takes their outcome as parameters: the configured years, if any, and the categories.
- `init` and everything else after loading is not modelled. This covers the filter checkboxes' DOM, the grid and label construction, `updateContributionGrid`, tooltips, click handling, scrolling, resizing, timers and square sizing. These are presentation code over browser APIs.
- The `focus()` call and `preventDefault` of `handleKeyNavigation` are DOM effects. The model computes only the new index. `event.key` is reduced to the six keys handled plus `Other`.
- The grid of DOM squares is not modelled. `KeyNavigation.SquareIndex` states the order in which `createContributionGrid` creates the squares.
- `console.log` and `console.warn` output is left out.
- `server.js` is not part of this model. It is an Express static file server.
- Graph.ContributionGraph.AddContributions: always terminates in the model, which counts years with unbounded integers. In the source the year is a JavaScript number (an IEEE double), and the loop of script.js:150-166 never ends in two cases. (1) The walk has to get past the December of a year for which `currentYear + 1` rounds back to `currentYear` (script.js:164): this holds for 2^53 itself, for the multiples of 4 between 2^53 and 2^54, for every year of 2^54 or more, and for `Infinity`; for example "Jan-9007199254740992" to "Dec-9007199254740992" loops forever, while "Jan-9007199254740994" to "Dec-9007199254740994" stops, and so does "Jan-9007199254740992" to "Jun-9007199254740992", which never needs to pass December. (2) The end year is `Infinity` (a year part worth about 1.8e308 or more, for instance any year of 310 or more digits) and the start year is finite, so the guard `currentYear < end.year` never fails. The model does not capture this non-termination.
- `Dates.ParseIntString` does not model `parseInt`'s float precision. Past 2^53 a JavaScript number loses digits and eventually becomes `Infinity`; the model reads an exact integer of any size.
- A date range whose `end` key is missing entirely (JavaScript `undefined`, not `null`) makes `parseDate` throw. The model has only null or a string.
- A `start` that is not a string (for example null) also throws. The model assumes a string.
- Cells are values in the model. A JavaScript cell object is updated in place through `data.count++`, but no other reference to it exists, so values lose nothing.
- `GenerateContributionData` requires that the grid holds no year outside `[startYear, endYear]`. In the source such rows would simply survive the reset; the years never change after loading, so no such row ever exists.

=== FILE: aggregation.dfy ===
/**
 * The contribution aggregation as values: the activity data, the cells of the
 * graph, and the reference definition of what every cell holds once the data has
 * been aggregated under a set of active category types.
 */
module Aggregation {
  import opened Wrappers
  import opened Dates
  import opened Levels

  /** `{start, end}`; an `end` of `None` (null) is an ongoing activity. */
  datatype DateRange = DateRange(start: string, end: Option<string>)

  /** An activity of a category: its name and the ranges of months it ran. */
  datatype Item = Item(name: string, dates: seq<DateRange>)

  /** `{type, data}`: a filterable group of activities (`type` is spelled `kind` here). */
  datatype Category = Category(kind: string, data: seq<Item>)

  /** The `{name, type}` record a cell keeps for every contribution it receives. */
  datatype Activity = Activity(name: string, kind: string)

  /** One (year, month) cell of the graph. */
  datatype Cell = Cell(level: nat, count: nat, activities: seq<Activity>)

  /** What every cell is reset to before the data is replayed. */
  const EmptyCell := Cell(0, 0, [])

  /** A cell after one more contribution: `count++` and `activities.push(a)`. */
  function AddActivity(c: Cell, a: Activity): Cell {
    c.(count := c.count + 1, activities := c.activities + [a])
  }

  /** A reset cell after receiving the records `acts`, before its level is computed. */
  function Accumulated(acts: seq<Activity>): Cell {
    Cell(0, |acts|, acts)
  }

  /** `start` of a range, or null when it does not parse. */
  function ResolveStart(r: DateRange): Option<Date> {
    ParseDate(r.start)
  }

  /** `end` of a range: December of `endYear` when the range is ongoing. */
  function ResolveEnd(r: DateRange, endYear: int): (d: Option<Date>)
    ensures r.end.None? ==> d == Some(Date(endYear, 11))
    ensures r.end.Some? ==> d == ParseDate(r.end.value)
  {
    match r.end
    case None => Some(Date(endYear, 11))
    case Some(s) => ParseDate(s)
  }

  /** Whether the walk over range `r` visits month `month` of `year`. */
  predicate Covers(r: DateRange, endYear: int, year: int, month: int) {
    ResolveStart(r).Some? && ResolveEnd(r, endYear).Some? &&
    AbsMonth(ResolveStart(r).value) <= year * 12 + month <= AbsMonth(ResolveEnd(r, endYear).value)
  }

  // ---------------------------------------------------------------------------
  // What a cell accumulates, in the order the data is replayed
  // ---------------------------------------------------------------------------

  /** The activity records one range adds to cell (`year`, `month`). */
  function RangeActivities(r: DateRange, name: string, kind: string, endYear: int, year: int, month: int)
    : seq<Activity>
  {
    if Covers(r, endYear, year, month) then [Activity(name, kind)] else []
  }

  /** The records the ranges `rs` of one item add to a cell, in order. */
  function RangesActivities(rs: seq<DateRange>, name: string, kind: string, endYear: int, year: int, month: int)
    : seq<Activity>
  {
    if rs == [] then []
    else
      RangesActivities(rs[..|rs| - 1], name, kind, endYear, year, month) +
      RangeActivities(rs[|rs| - 1], name, kind, endYear, year, month)
  }

  /** The records the items of one category add to a cell, in order. */
  function ItemsActivities(items: seq<Item>, kind: string, endYear: int, year: int, month: int): seq<Activity> {
    if items == [] then []
    else
      var last := items[|items| - 1];
      ItemsActivities(items[..|items| - 1], kind, endYear, year, month) +
      RangesActivities(last.dates, last.name, kind, endYear, year, month)
  }

  /** The records one category adds to a cell: none unless its type is active. */
  function CategoryActivities(c: Category, filters: set<string>, endYear: int, year: int, month: int)
    : seq<Activity>
  {
    if c.kind in filters then ItemsActivities(c.data, c.kind, endYear, year, month) else []
  }

  /** The records the categories `cats` add to a cell, in order. */
  function CategoriesActivities(cats: seq<Category>, filters: set<string>, endYear: int, year: int, month: int)
    : seq<Activity>
  {
    if cats == [] then []
    else
      CategoriesActivities(cats[..|cats| - 1], filters, endYear, year, month) +
      CategoryActivities(cats[|cats| - 1], filters, endYear, year, month)
  }

  /** Replaying one more category appends its records. */
  lemma CategoriesActivitiesStep(cats: seq<Category>, i: nat, filters: set<string>, endYear: int)
    requires i < |cats|
    ensures forall year, month ::
              CategoriesActivities(cats[..i + 1], filters, endYear, year, month) ==
              CategoriesActivities(cats[..i], filters, endYear, year, month) + CategoryActivities(cats[i], filters, endYear, year, month)
  {
    assert cats[..i + 1][..i] == cats[..i];
  }

  /** Replaying one more item appends its records. */
  lemma ItemsActivitiesStep(items: seq<Item>, j: nat, kind: string, endYear: int)
    requires j < |items|
    ensures forall year, month ::
              ItemsActivities(items[..j + 1], kind, endYear, year, month) ==
              ItemsActivities(items[..j], kind, endYear, year, month) +
              RangesActivities(items[j].dates, items[j].name, kind, endYear, year, month)
  {
    assert items[..j + 1][..j] == items[..j];
  }

  /** Replaying one more range appends its record, if it covers the cell. */
  lemma RangesActivitiesStep(rs: seq<DateRange>, k: nat, name: string, kind: string, endYear: int)
    requires k < |rs|
    ensures forall year, month ::
              RangesActivities(rs[..k + 1], name, kind, endYear, year, month) ==
              RangesActivities(rs[..k], name, kind, endYear, year, month) + RangeActivities(rs[k], name, kind, endYear, year, month)
  {
    assert rs[..k + 1][..k] == rs[..k];
  }

  // ---------------------------------------------------------------------------
  // Reference count: covering (active category, item, date range) triples
  // ---------------------------------------------------------------------------

  function RangesCount(rs: seq<DateRange>, endYear: int, year: int, month: int): nat {
    if rs == [] then 0
    else (if Covers(rs[0], endYear, year, month) then 1 else 0) + RangesCount(rs[1..], endYear, year, month)
  }

  function ItemsCount(items: seq<Item>, endYear: int, year: int, month: int): nat {
    if items == [] then 0
    else RangesCount(items[0].dates, endYear, year, month) + ItemsCount(items[1..], endYear, year, month)
  }

  /** The number of date ranges of active categories that cover cell (`year`, `month`). */
  function CoverCount(cats: seq<Category>, filters: set<string>, endYear: int, year: int, month: int): nat {
    if cats == [] then 0
    else
      (if cats[0].kind in filters then ItemsCount(cats[0].data, endYear, year, month) else 0) +
      CoverCount(cats[1..], filters, endYear, year, month)
  }

  lemma {:induction false} RangesCountAppend(a: seq<DateRange>, b: seq<DateRange>, endYear: int, year: int, month: int)
    ensures RangesCount(a + b, endYear, year, month) ==
            RangesCount(a, endYear, year, month) + RangesCount(b, endYear, year, month)
  {
    if a != [] {
      assert (a + b)[1..] == a[1..] + b;
      RangesCountAppend(a[1..], b, endYear, year, month);
    } else {
      assert a + b == b;
    }
  }

  lemma {:induction false} ItemsCountAppend(a: seq<Item>, b: seq<Item>, endYear: int, year: int, month: int)
    ensures ItemsCount(a + b, endYear, year, month) ==
            ItemsCount(a, endYear, year, month) + ItemsCount(b, endYear, year, month)
  {
    if a != [] {
      assert (a + b)[1..] == a[1..] + b;
      ItemsCountAppend(a[1..], b, endYear, year, month);
    } else {
      assert a + b == b;
    }
  }

  lemma {:induction false} CoverCountAppend(
    a: seq<Category>, b: seq<Category>, filters: set<string>, endYear: int, year: int, month: int)
    ensures CoverCount(a + b, filters, endYear, year, month) ==
            CoverCount(a, filters, endYear, year, month) + CoverCount(b, filters, endYear, year, month)
  {
    if a != [] {
      assert (a + b)[1..] == a[1..] + b;
      CoverCountAppend(a[1..], b, filters, endYear, year, month);
    } else {
      assert a + b == b;
    }
  }

  lemma RangesCountOne(r: DateRange, name: string, kind: string, endYear: int, year: int, month: int)
    ensures RangesCount([r], endYear, year, month) == |RangeActivities(r, name, kind, endYear, year, month)|
  {
    assert [r][1..] == [];
  }

  lemma ItemsCountOne(item: Item, endYear: int, year: int, month: int)
    ensures ItemsCount([item], endYear, year, month) == RangesCount(item.dates, endYear, year, month)
  {
    assert [item][1..] == [];
  }

  lemma CoverCountOne(cat: Category, filters: set<string>, endYear: int, year: int, month: int)
    ensures CoverCount([cat], filters, endYear, year, month) ==
            if cat.kind in filters then ItemsCount(cat.data, endYear, year, month) else 0
  {
    assert [cat][1..] == [];
  }

  /** One record per covering range of an item. */
  lemma {:induction false} RangesActivitiesCount(
    rs: seq<DateRange>, name: string, kind: string, endYear: int, year: int, month: int)
    ensures |RangesActivities(rs, name, kind, endYear, year, month)| == RangesCount(rs, endYear, year, month)
  {
    if rs != [] {
      var init, last := rs[..|rs| - 1], rs[|rs| - 1];
      assert init + [last] == rs;
      RangesActivitiesCount(init, name, kind, endYear, year, month);
      RangesCountAppend(init, [last], endYear, year, month);
      RangesCountOne(last, name, kind, endYear, year, month);
    }
  }

  /** One record per covering range of the items of a category. */
  lemma {:induction false} ItemsActivitiesCount(items: seq<Item>, kind: string, endYear: int, year: int, month: int)
    ensures |ItemsActivities(items, kind, endYear, year, month)| == ItemsCount(items, endYear, year, month)
  {
    if items != [] {
      var init, last := items[..|items| - 1], items[|items| - 1];
      assert init + [last] == items;
      ItemsActivitiesCount(init, kind, endYear, year, month);
      RangesActivitiesCount(last.dates, last.name, kind, endYear, year, month);
      ItemsCountAppend(init, [last], endYear, year, month);
      ItemsCountOne(last, endYear, year, month);
    }
  }

  /** One record per covering range of an active category: a cell's list is as long as its count. */
  lemma {:induction false} CategoriesActivitiesCount(
    cats: seq<Category>, filters: set<string>, endYear: int, year: int, month: int)
    ensures |CategoriesActivities(cats, filters, endYear, year, month)| == CoverCount(cats, filters, endYear, year, month)
  {
    if cats != [] {
      var init, last := cats[..|cats| - 1], cats[|cats| - 1];
      assert init + [last] == cats;
      CategoriesActivitiesCount(init, filters, endYear, year, month);
      if last.kind in filters {
        ItemsActivitiesCount(last.data, last.kind, endYear, year, month);
      }
      CoverCountAppend(init, [last], filters, endYear, year, month);
      CoverCountOne(last, filters, endYear, year, month);
    }
  }

  /** Every record an item adds carries the item's name and the category's type. */
  lemma {:induction false} RangesActivitiesAre(
    rs: seq<DateRange>, name: string, kind: string, endYear: int, year: int, month: int)
    ensures forall a :: a in RangesActivities(rs, name, kind, endYear, year, month) ==> a == Activity(name, kind)
  {
    if rs != [] {
      RangesActivitiesAre(rs[..|rs| - 1], name, kind, endYear, year, month);
    }
  }

  lemma {:induction false} ItemsActivitiesAre(items: seq<Item>, kind: string, endYear: int, year: int, month: int)
    ensures forall a :: a in ItemsActivities(items, kind, endYear, year, month) ==> a.kind == kind
  {
    if items != [] {
      var last := items[|items| - 1];
      ItemsActivitiesAre(items[..|items| - 1], kind, endYear, year, month);
      RangesActivitiesAre(last.dates, last.name, kind, endYear, year, month);
    }
  }

  /** Categories whose type is not active contribute no record to any cell. */
  lemma {:induction false} ActivitiesAreActive(cats: seq<Category>, filters: set<string>, endYear: int, year: int, month: int)
    ensures forall a :: a in CategoriesActivities(cats, filters, endYear, year, month) ==> a.kind in filters
  {
    if cats != [] {
      var last := cats[|cats| - 1];
      ActivitiesAreActive(cats[..|cats| - 1], filters, endYear, year, month);
      if last.kind in filters {
        ItemsActivitiesAre(last.data, last.kind, endYear, year, month);
      }
    }
  }

  // ---------------------------------------------------------------------------
  // The aggregated cell
  // ---------------------------------------------------------------------------

  /** The cell (`year`, `month`) after aggregating `cats` under `filters`. */
  function ExpectedCell(cats: seq<Category>, filters: set<string>, endYear: int, year: int, month: int): (c: Cell)
    ensures c.count == CoverCount(cats, filters, endYear, year, month) == |c.activities|
    ensures c.level == Level(c.count) && c.level <= 9
    ensures forall a :: a in c.activities ==> a.kind in filters
  {
    var acts := CategoriesActivities(cats, filters, endYear, year, month);
    CategoriesActivitiesCount(cats, filters, endYear, year, month);
    ActivitiesAreActive(cats, filters, endYear, year, month);
    Cell(Level(|acts|), |acts|, acts)
  }

  // ---------------------------------------------------------------------------
  // Filters
  // ---------------------------------------------------------------------------

  /** With `t` active, a cell's count is the count without `t` plus the count of `t` alone. */
  lemma {:induction false} CoverCountSplit(
    cats: seq<Category>, filters: set<string>, t: string, endYear: int, year: int, month: int)
    requires t in filters
    ensures CoverCount(cats, filters, endYear, year, month) ==
            CoverCount(cats, filters - {t}, endYear, year, month) + CoverCount(cats, {t}, endYear, year, month)
  {
    if cats != [] {
      CoverCountSplit(cats[1..], filters, t, endYear, year, month);
    }
  }

  /** Activating more types never lowers a count. */
  lemma {:induction false} CoverCountMonotone(
    cats: seq<Category>, filters: set<string>, more: set<string>, endYear: int, year: int, month: int)
    requires filters <= more
    ensures CoverCount(cats, filters, endYear, year, month) <= CoverCount(cats, more, endYear, year, month)
  {
    if cats != [] {
      CoverCountMonotone(cats[1..], filters, more, endYear, year, month);
    }
  }

  /** ... and so never lowers a level. */
  lemma LevelMonotoneInFilters(
    cats: seq<Category>, filters: set<string>, more: set<string>, endYear: int, year: int, month: int)
    requires filters <= more
    ensures ExpectedCell(cats, filters, endYear, year, month).level <= ExpectedCell(cats, more, endYear, year, month).level
  {
    CoverCountMonotone(cats, filters, more, endYear, year, month);
    LevelMonotone(CoverCount(cats, filters, endYear, year, month), CoverCount(cats, more, endYear, year, month));
  }

  /** A category whose type is not active can be dropped from the data without changing any count. */
  lemma CoverCountInactive(
    cats: seq<Category>, i: nat, filters: set<string>, endYear: int, year: int, month: int)
    requires i < |cats| && cats[i].kind !in filters
    ensures CoverCount(cats, filters, endYear, year, month) ==
            CoverCount(cats[..i] + cats[i + 1..], filters, endYear, year, month)
  {
    assert cats == cats[..i] + ([cats[i]] + cats[i + 1..]);
    CoverCountAppend(cats[..i], [cats[i]] + cats[i + 1..], filters, endYear, year, month);
    CoverCountAppend(cats[..i], cats[i + 1..], filters, endYear, year, month);
  }

  // ---------------------------------------------------------------------------
  // Ranges
  // ---------------------------------------------------------------------------

  /** A range whose start, or whose given end, does not parse covers nothing. */
  lemma UnparsedRangeCoversNothing(r: DateRange, endYear: int)
    requires ParseDate(r.start).None? || (r.end.Some? && ParseDate(r.end.value).None?)
    ensures forall year, month :: !Covers(r, endYear, year, month)
  {
  }

  /** A range that starts after it ends covers nothing. */
  lemma InvertedRangeCoversNothing(r: DateRange, endYear: int, year: int, month: int)
    requires ResolveStart(r).Some? && ResolveEnd(r, endYear).Some?
    requires AbsMonth(ResolveStart(r).value) > AbsMonth(ResolveEnd(r, endYear).value)
    ensures !Covers(r, endYear, year, month)
  {
  }

  /** A range that ends before the first year of the graph covers no month of the graph's years. */
  lemma BeforeYearsCoversNoCell(r: DateRange, startYear: int, endYear: int)
    requires ResolveStart(r).Some? && ResolveEnd(r, endYear).Some?
    requires ResolveEnd(r, endYear).value.year < startYear
    ensures forall year, month :: startYear <= year && 0 <= month < 12 ==> !Covers(r, endYear, year, month)
  {
  }

  /** A range that starts after the last year of the graph covers no month of the graph's years. */
  lemma AfterYearsCoversNoCell(r: DateRange, startYear: int, endYear: int)
    requires ResolveStart(r).Some? && ResolveEnd(r, endYear).Some?
    requires ResolveStart(r).value.year > endYear
    ensures forall year, month :: year <= endYear && 0 <= month < 12 ==> !Covers(r, endYear, year, month)
  {
  }

  /** The walk over a range whose ends parse visits exactly the months between them. */
  lemma CoversBetween(r: DateRange, endYear: int, first: Date, last: Date, year: int, month: Month)
    requires ResolveStart(r) == Some(first) && ResolveEnd(r, endYear) == Some(last)
    ensures Covers(r, endYear, year, month) <==> AbsMonth(first) <= year * 12 + month <= AbsMonth(last)
  {
  }

  /** Month `month` of `year` lies in year `y` exactly when `year` is `y`. */
  lemma MonthsOfYear(year: int, month: Month, y: int)
    ensures y * 12 <= year * 12 + month < y * 12 + 12 <==> year == y
  {
    if year < y { assert year * 12 + month < (year + 1) * 12 <= y * 12; }
    if year > y { assert year * 12 >= (y + 1) * 12; }
  }

  lemma Year2020s()
    ensures NatToString(2020) == "2020" && NatToString(2021) == "2021" && NatToString(2024) == "2024"
  {
    assert NatToString(2) == "2" && NatToString(20) == "20" && NatToString(202) == "202";
  }

  lemma ParseExamples()
    ensures ParseDate("Jan-2020") == Some(Date(2020, 0)) && ParseDate("Mar-2020") == Some(Date(2020, 2))
    ensures ParseDate("Jan-2021") == Some(Date(2021, 0)) && ParseDate("Feb-2021") == Some(Date(2021, 1))
    ensures ParseDate("Jun-2024") == Some(Date(2024, 5))
  {
    Year2020s();
    assert FormatDate(2020, 0) == "Jan-2020" && FormatDate(2020, 2) == "Mar-2020";
    assert FormatDate(2021, 0) == "Jan-2021" && FormatDate(2021, 1) == "Feb-2021";
    assert FormatDate(2024, 5) == "Jun-2024";
    ParseFormatDate(2020, 0);
    ParseFormatDate(2020, 2);
    ParseFormatDate(2021, 0);
    ParseFormatDate(2021, 1);
    ParseFormatDate(2024, 5);
  }

  /** "Jan-2020" to "Mar-2020" covers exactly January, February and March 2020. */
  lemma FirstQuarter2020(endYear: int, year: int, month: Month)
    ensures Covers(DateRange("Jan-2020", Some("Mar-2020")), endYear, year, month) <==> year == 2020 && month <= 2
  {
    ParseExamples();
    CoversBetween(DateRange("Jan-2020", Some("Mar-2020")), endYear, Date(2020, 0), Date(2020, 2), year, month);
    assert AbsMonth(Date(2020, 0)) == 2020 * 12 && AbsMonth(Date(2020, 2)) == 2020 * 12 + 2;
    MonthsOfYear(year, month, 2020);
  }

  /** "Jun-2024" with no end covers June 2024 through December of the last year, 2025. */
  lemma OngoingSinceJune2024(year: int, month: Month)
    ensures Covers(DateRange("Jun-2024", None), 2025, year, month) <==>
            (year == 2024 && month >= 5) || year == 2025
  {
    ParseExamples();
    CoversBetween(DateRange("Jun-2024", None), 2025, Date(2024, 5), Date(2025, 11), year, month);
  }

  /** "Foo-2020" is not a date: the range adds nothing. */
  lemma FooIsNotAMonth()
    ensures ParseDate("Foo-2020") == None
  {
    assert Join(["Foo", "2020"], '-') == "Foo-2020";
    SplitJoin(["Foo", "2020"], '-');
    assert MonthPart("Foo-2020") == "Foo";
    assert "Foo" !in MonthsShort;
    ParseDateMeaning("Foo-2020");
  }

  lemma UnknownMonthCoversNothing(endYear: int, year: int, month: int)
    ensures !Covers(DateRange("Foo-2020", None), endYear, year, month)
  {
    FooIsNotAMonth();
  }

  /** The data of a single activity with a single range gives each cell at most that range's record. */
  lemma SingleRangeActivities(r: DateRange, name: string, kind: string, filters: set<string>, endYear: int,
                              year: int, month: int)
    requires kind in filters
    ensures CategoriesActivities([Category(kind, [Item(name, [r])])], filters, endYear, year, month) ==
            RangeActivities(r, name, kind, endYear, year, month)
  {
    var item := Item(name, [r]);
    var cats := [Category(kind, [item])];
    assert [r][..0] == [] && [item][..0] == [] && cats[..0] == [];
    assert RangesActivities([r], name, kind, endYear, year, month) == RangeActivities(r, name, kind, endYear, year, month);
    assert ItemsActivities([item], kind, endYear, year, month) == RangeActivities(r, name, kind, endYear, year, month);
  }

  /**
   * One project "X" from January to February 2021: those two cells hold one
   * contribution at level 1, every other cell none.
   */
  lemma SingleProjectScenario(year: int, month: Month)
    ensures var cats := [Category("Project", [Item("X", [DateRange("Jan-2021", Some("Feb-2021"))])])];
            var c := ExpectedCell(cats, {"Project"}, 2022, year, month);
            if year == 2021 && month <= 1 then c.count == 1 && c.level == 1 && c.activities == [Activity("X", "Project")]
            else c == EmptyCell
  {
    var r := DateRange("Jan-2021", Some("Feb-2021"));
    ParseExamples();
    CoversBetween(r, 2022, Date(2021, 0), Date(2021, 1), year, month);
    assert AbsMonth(Date(2021, 0)) == 2021 * 12 && AbsMonth(Date(2021, 1)) == 2021 * 12 + 1;
    MonthsOfYear(year, month, 2021);
    SingleRangeActivities(r, "X", "Project", {"Project"}, 2022, year, month);
  }
}

=== FILE: dates.dfy ===
/**
 * Parsing of the "Mon-YYYY" date strings of the activity data:
 * `String.prototype.split`, `Array.prototype.indexOf`, the global `parseInt`
 * and `ContributionGraph.parseDate` built from them.
 */
module Dates {
  import opened Wrappers

  /** A month index as used throughout the graph: 0 is January, 11 is December. */
  type Month = m: int | 0 <= m < 12

  /** The `{year, month}` record that `parseDate` returns. */
  datatype Date = Date(year: int, month: Month)

  /** `monthsShort` of the graph. */
  const MonthsShort: seq<string> :=
    ["Jan", "Feb", "Mar", "Apr", "May", "Jun", "Jul", "Aug", "Sep", "Oct", "Nov", "Dec"]

  /** The number of months from year 0, January, to `d`: the order in which months are walked. */
  function AbsMonth(d: Date): int {
    d.year * 12 + d.month
  }

  // ---------------------------------------------------------------------------
  // split
  // ---------------------------------------------------------------------------

  /** The position of the first `c` in `s`. */
  function FirstIndex(s: string, c: char): (i: nat)
    requires c in s
    ensures i < |s| && s[i] == c && c !in s[..i]
  {
    if s[0] == c then 0
    else
      assert c in s[1..] by { var k :| 0 <= k < |s| && s[k] == c; assert s[1..][k - 1] == c; }
      var i := 1 + FirstIndex(s[1..], c);
      assert s[..i] == [s[0]] + s[1..][..i - 1];
      i
  }

  /** `s.split(sep)` for a one-character separator: the pieces between the separators. */
  function Split(s: string, sep: char): (pieces: seq<string>)
    ensures |pieces| >= 1
    ensures forall i :: 0 <= i < |pieces| ==> sep !in pieces[i]
    decreases |s|
  {
    if sep !in s then [s]
    else
      var i := FirstIndex(s, sep);
      [s[..i]] + Split(s[i + 1..], sep)
  }

  /** `pieces.join(sep)`: the inverse of `Split`. */
  function Join(pieces: seq<string>, sep: char): string
    requires |pieces| >= 1
  {
    if |pieces| == 1 then pieces[0] else pieces[0] + [sep] + Join(pieces[1..], sep)
  }

  /** Splitting loses nothing: joining the pieces gives the string back. */
  lemma {:induction false} JoinSplit(s: string, sep: char)
    ensures Join(Split(s, sep), sep) == s
    decreases |s|
  {
    if sep in s {
      var i := FirstIndex(s, sep);
      var pieces, tail := Split(s, sep), Split(s[i + 1..], sep);
      assert pieces == [s[..i]] + tail;
      assert pieces[0] == s[..i] && pieces[1..] == tail;
      JoinSplit(s[i + 1..], sep);
      assert Join(pieces, sep) == s[..i] + [sep] + s[i + 1..];
      assert s == s[..i] + [sep] + s[i + 1..];
    }
  }

  /** Pieces free of the separator are exactly what splitting their join gives back. */
  lemma {:induction false} SplitJoin(pieces: seq<string>, sep: char)
    requires |pieces| >= 1
    requires forall i :: 0 <= i < |pieces| ==> sep !in pieces[i]
    ensures Split(Join(pieces, sep), sep) == pieces
  {
    if |pieces| > 1 {
      var s := Join(pieces, sep);
      var rest := Join(pieces[1..], sep);
      assert s == pieces[0] + [sep] + rest;
      assert s[|pieces[0]|] == sep;
      var i := FirstIndex(s, sep);
      assert s[..i][..|pieces[0]|] == pieces[0] by { assert i <= |pieces[0]|; }
      assert i == |pieces[0]|;
      assert s[..i] == pieces[0];
      assert s[i + 1..] == rest;
      assert Split(s, sep) == [pieces[0]] + Split(rest, sep);
      SplitJoin(pieces[1..], sep);
      assert pieces == [pieces[0]] + pieces[1..];
    }
  }

  // ---------------------------------------------------------------------------
  // indexOf
  // ---------------------------------------------------------------------------

  /** `xs.indexOf(x)`: the first position of `x` in `xs`, or -1 when it is absent. */
  function IndexOf(xs: seq<string>, x: string): (r: int)
    ensures -1 <= r < |xs|
    ensures r == -1 <==> x !in xs
    ensures r >= 0 ==> xs[r] == x && x !in xs[..r]
  {
    if xs == [] then -1
    else if xs[0] == x then 0
    else
      var r := IndexOf(xs[1..], x);
      if r == -1 then -1
      else
        assert xs[..r + 1] == [xs[0]] + xs[1..][..r];
        r + 1
  }

  // ---------------------------------------------------------------------------
  // parseInt
  // ---------------------------------------------------------------------------

  /** The white space and line terminators that `parseInt` skips before the number. */
  predicate IsWhiteSpace(c: char) {
    c == '\t' || c == '\n' || c == '\U{000B}' || c == '\U{000C}' || c == '\r' || c == ' ' ||
    c == '\U{00A0}' || c == '\U{1680}' || ('\U{2000}' <= c <= '\U{200A}') ||
    c == '\U{2028}' || c == '\U{2029}' || c == '\U{202F}' || c == '\U{205F}' ||
    c == '\U{3000}' || c == '\U{FEFF}'
  }

  /** `s` without its leading white space. */
  function TrimStart(s: string): (t: string)
    ensures |t| <= |s| && t == s[|s| - |t|..]
    ensures forall i :: 0 <= i < |s| - |t| ==> IsWhiteSpace(s[i])
    ensures t == [] || !IsWhiteSpace(t[0])
  {
    if s != [] && IsWhiteSpace(s[0]) then TrimStart(s[1..]) else s
  }

  /** The value of `c` as a digit of base `radix` (10 or 16), or -1 when it is not one. */
  function DigitValue(c: char, radix: nat): (d: int)
    ensures d == -1 || 0 <= d < radix
  {
    if '0' <= c <= '9' && (c as int) - ('0' as int) < radix then (c as int) - ('0' as int)
    else if radix == 16 && 'a' <= c <= 'f' then (c as int) - ('a' as int) + 10
    else if radix == 16 && 'A' <= c <= 'F' then (c as int) - ('A' as int) + 10
    else -1
  }

  predicate IsDigit(c: char, radix: nat) {
    DigitValue(c, radix) >= 0
  }

  /** The longest prefix of `s` made of digits of base `radix`. */
  function LeadingDigits(s: string, radix: nat): (ds: string)
    ensures |ds| <= |s| && ds == s[..|ds|]
    ensures forall i :: 0 <= i < |ds| ==> IsDigit(ds[i], radix)
    ensures |ds| == |s| || !IsDigit(s[|ds|], radix)
  {
    if s == [] || !IsDigit(s[0], radix) then []
    else [s[0]] + LeadingDigits(s[1..], radix)
  }

  /** The value of a string of digits in base `radix`, most significant digit first. */
  function DigitsValue(ds: string, radix: nat): (v: nat)
    requires forall i :: 0 <= i < |ds| ==> IsDigit(ds[i], radix)
  {
    if ds == [] then 0
    else
      var last := ds[|ds| - 1];
      assert IsDigit(last, radix);
      var high := DigitsValue(ds[..|ds| - 1], radix);
      NatProduct(high, radix);
      high * radix + DigitValue(last, radix)
  }

  lemma NatProduct(a: nat, b: nat)
    ensures a * b >= 0
  {
  }

  /** `s` without its one optional sign. */
  function StripSign(s: string): string {
    if s != [] && (s[0] == '+' || s[0] == '-') then s[1..] else s
  }

  /** Whether `u` starts with "0x" or "0X". */
  predicate HexPrefixed(u: string) {
    |u| >= 2 && u[0] == '0' && (u[1] == 'x' || u[1] == 'X')
  }

  /**
   * The number after the sign: in base 16 after a `0x`/`0X` prefix, in base 10
   * otherwise, read from the longest run of digits. `None` when there is no digit.
   */
  function ParseMagnitude(u: string): (r: Option<nat>) {
    var hex := HexPrefixed(u);
    var radix := if hex then 16 else 10;
    var digits := LeadingDigits(if hex then u[2..] else u, radix);
    if digits == [] then None else Some(DigitsValue(digits, radix))
  }

  /**
   * The global `parseInt(s)` without a radix: skip leading white space, read one
   * optional sign, then the magnitude. `None` is `NaN`: no digit at all.
   */
  function ParseIntString(input: string): (r: Option<int>)
    ensures r.Some? && r.value < 0 ==> '-' in input
  {
    var s := TrimStart(input);
    var negative := s != [] && s[0] == '-';
    match ParseMagnitude(StripSign(s))
    case None => None
    case Some(magnitude) =>
      assert negative ==> input[|input| - |s|] == '-';
      Some(if negative then -(magnitude as int) else magnitude)
  }

  /** `parseInt(x)` where `x` may be `undefined` (`None`), which converts to the string "undefined". */
  function ParseInt(x: Option<string>): Option<int> {
    ParseIntString(match x case None => "undefined" case Some(s) => s)
  }

  // ---------------------------------------------------------------------------
  // parseDate
  // ---------------------------------------------------------------------------

  /** `parseInt(undefined)` is `NaN`. */
  lemma UndefinedIsNaN()
    ensures ParseIntString("undefined") == None
  {
    var u := "undefined";
    assert TrimStart(u) == u by { assert !IsWhiteSpace(u[0]); }
    assert LeadingDigits(u, 10) == [] by { assert !IsDigit(u[0], 10); }
  }

  /** The month part of `s`: what comes before the first '-'. */
  function MonthPart(s: string): string {
    Split(s, '-')[0]
  }

  /** The year part of `s`: what comes between the first and second '-', `undefined` without a '-'. */
  function YearPart(s: string): Option<string> {
    var pieces := Split(s, '-');
    if |pieces| > 1 then Some(pieces[1]) else None
  }

  /**
   * `parseDate`: "Mon-YYYY" to a `Date`, `None` (null) when the month part is not one
   * of the twelve abbreviations or the year part does not parse as an integer.
   */
  function ParseDate(s: string): (r: Option<Date>)
    ensures r.Some? ==> r.value.year >= 0
  {
    var monthIndex := IndexOf(MonthsShort, MonthPart(s));
    var year := ParseInt(YearPart(s));
    if monthIndex == -1 || year.None? then None
    else
      assert YearPart(s).Some? by {
        if YearPart(s).None? { UndefinedIsNaN(); }
      }
      assert '-' !in YearPart(s).value;
      Some(Date(year.value, monthIndex))
  }

  /**
   * `parseDate` gives null exactly when the month part is not an abbreviation or the
   * year part is NaN; otherwise the month is the abbreviation's index and the year
   * what `parseInt` makes of the year part.
   */
  lemma ParseDateMeaning(s: string)
    ensures ParseDate(s).None? <==> MonthPart(s) !in MonthsShort || ParseInt(YearPart(s)).None?
    ensures ParseDate(s).Some? ==> MonthsShort[ParseDate(s).value.month] == MonthPart(s)
    ensures ParseDate(s).Some? ==> ParseInt(YearPart(s)) == Some(ParseDate(s).value.year)
  {
  }

  // ---------------------------------------------------------------------------
  // Round trip with the decimal rendering of a year
  // ---------------------------------------------------------------------------

  /** The decimal rendering of `n`, without leading zeros. */
  function NatToString(n: nat): (s: string)
    ensures |s| >= 1
    ensures forall i :: 0 <= i < |s| ==> '0' <= s[i] <= '9'
    ensures |s| >= 2 ==> s[1] != 'x' && s[1] != 'X'
  {
    var d := ['0' + ((n % 10) as char)];
    if n < 10 then d else NatToString(n / 10) + d
  }

  /** The "Mon-YYYY" rendering of a year and month. */
  function FormatDate(year: nat, month: Month): string {
    MonthsShort[month] + "-" + NatToString(year)
  }

  lemma {:induction false} DecimalValue(n: nat)
    ensures forall i :: 0 <= i < |NatToString(n)| ==> IsDigit(NatToString(n)[i], 10)
    ensures DigitsValue(NatToString(n), 10) == n
  {
    var s := NatToString(n);
    if n >= 10 {
      DecimalValue(n / 10);
      assert s[..|s| - 1] == NatToString(n / 10);
    }
  }

  /** A run of digits stops exactly where the digits stop. */
  lemma {:induction false} LeadingDigitsOfDigits(ds: string, rest: string, radix: nat)
    requires forall i :: 0 <= i < |ds| ==> IsDigit(ds[i], radix)
    requires rest == [] || !IsDigit(rest[0], radix)
    ensures LeadingDigits(ds + rest, radix) == ds
  {
    if ds != [] {
      assert (ds + rest)[1..] == ds[1..] + rest;
      LeadingDigitsOfDigits(ds[1..], rest, radix);
    }
  }

  lemma NoLeadingSpace(s: string)
    requires s != [] && !IsWhiteSpace(s[0])
    ensures TrimStart(s) == s
  {
  }

  /** Without leading white space or a sign, `parseInt` is the magnitude. */
  lemma Unsigned(s: string)
    requires TrimStart(s) == s && s != [] && s[0] != '-' && s[0] != '+'
    ensures ParseIntString(s) == match ParseMagnitude(s) case None => None case Some(m) => Some(m as int)
  {
    assert StripSign(s) == s;
  }

  /** Digits that do not start with "0x" are read in base 10. */
  lemma DecimalMagnitude(u: string)
    requires u != [] && '0' <= u[0] <= '9'
    requires |u| >= 2 ==> u[1] != 'x' && u[1] != 'X'
    ensures IsDigit(u[0], 10)
    ensures ParseMagnitude(u) == Some(DigitsValue(LeadingDigits(u, 10), 10))
  {
    assert !HexPrefixed(u);
    assert IsDigit(u[0], 10);
  }

  /** Skipping white space in front of text that does not start with white space. */
  lemma {:induction false} TrimWhiteSpace(ws: string, t: string)
    requires forall i :: 0 <= i < |ws| ==> IsWhiteSpace(ws[i])
    requires t != [] && !IsWhiteSpace(t[0])
    ensures TrimStart(ws + t) == t
  {
    if ws != [] {
      assert (ws + t)[1..] == ws[1..] + t;
      TrimWhiteSpace(ws[1..], t);
    }
  }

  /** Whether the text after the sign starts with a digit `parseInt` can read. */
  predicate StartsWithDigit(u: string) {
    if HexPrefixed(u) then |u| > 2 && IsDigit(u[2], 16) else u != [] && IsDigit(u[0], 10)
  }

  /**
   * `parseInt` is `NaN` exactly when no digit follows the leading white space, the
   * one optional sign and, for base 16, the "0x" prefix.
   */
  lemma ParseIntNaN(input: string)
    ensures ParseIntString(input).None? <==> !StartsWithDigit(StripSign(TrimStart(input)))
  {
    var u := StripSign(TrimStart(input));
    if HexPrefixed(u) {
      assert u[2..] == [] || u[2..][0] == u[2];
    }
  }

  /** Concatenation regrouped to the right. */
  lemma Concat4(a: string, b: string, c: string, d: string)
    ensures a + b + c + d == a + (b + (c + d))
  {
  }

  /** Decimal digits, not preceded by "0x", are read in base 10 up to the first non-digit. */
  lemma DecimalRun(ds: string, rest: string)
    requires ds != [] && forall i :: 0 <= i < |ds| ==> IsDigit(ds[i], 10)
    requires rest == [] || !IsDigit(rest[0], 10)
    requires !HexPrefixed(ds + rest)
    ensures ParseMagnitude(ds + rest) == Some(DigitsValue(ds, 10))
  {
    LeadingDigitsOfDigits(ds, rest, 10);
  }

  /** `magnitude` with the sign `sign` in front. */
  function Signed(sign: string, magnitude: nat): int {
    if sign == "-" then -(magnitude as int) else magnitude
  }

  /** `parseInt` of text whose white space is skipped to `t`, which starts with `sign` and then `u`. */
  lemma SignedMagnitude(input: string, t: string, sign: string, u: string, v: nat)
    requires TrimStart(input) == t && t == sign + u
    requires sign == "" || sign == "+" || sign == "-"
    requires u != [] && IsDigit(u[0], 10)
    requires ParseMagnitude(u) == Some(v)
    ensures ParseIntString(input) == Some(Signed(sign, v))
  {
    assert StripSign(t) == u && (t[0] == '-' <==> sign == "-") by {
      assert t[0] == if sign == "" then u[0] else sign[0];
      if sign != "" { assert t[1..] == u; }
    }
  }

  /** The white space in front of a sign or a digit is what `parseInt` skips. */
  lemma SkipWhiteSpace(ws: string, sign: string, ds: string, rest: string)
    requires forall i :: 0 <= i < |ws| ==> IsWhiteSpace(ws[i])
    requires sign == "" || sign == "+" || sign == "-"
    requires ds != [] && IsDigit(ds[0], 10)
    ensures TrimStart(ws + sign + ds + rest) == sign + (ds + rest)
  {
    var t := sign + (ds + rest);
    assert t[0] == if sign == "" then ds[0] else sign[0];
    Concat4(ws, sign, ds, rest);
    TrimWhiteSpace(ws, t);
  }

  /**
   * `parseInt` of decimal text, after any white space and one optional sign, is the
   * value of its digits, negated after a minus sign, whatever text follows,
   * provided it does not continue the digits or make a lone `0` a `0x` prefix.
   */
  lemma ParseIntDecimal(ws: string, sign: string, ds: string, rest: string)
    requires forall i :: 0 <= i < |ws| ==> IsWhiteSpace(ws[i])
    requires sign == "" || sign == "+" || sign == "-"
    requires ds != [] && forall i :: 0 <= i < |ds| ==> IsDigit(ds[i], 10)
    requires rest == [] || !IsDigit(rest[0], 10)
    requires !HexPrefixed(ds + rest)
    ensures ParseIntString(ws + sign + ds + rest) == Some(Signed(sign, DigitsValue(ds, 10)))
  {
    var u := ds + rest;
    var t := sign + u;
    var input := ws + sign + ds + rest;
    assert u != [] && IsDigit(u[0], 10) by { assert u[0] == ds[0]; }
    SkipWhiteSpace(ws, sign, ds, rest);
    assert ParseMagnitude(u) == Some(DigitsValue(ds, 10)) by { DecimalRun(ds, rest); }
    SignedMagnitude(input, t, sign, u, DigitsValue(ds, 10));
  }

  /** A string that starts with a decimal digit, and not with "0x", is read as a plain decimal number. */
  lemma ParseIntUnsignedDecimal(s: string)
    requires s != [] && '0' <= s[0] <= '9'
    requires |s| >= 2 ==> s[1] != 'x' && s[1] != 'X'
    ensures IsDigit(s[0], 10)
    ensures ParseIntString(s) == Some(DigitsValue(LeadingDigits(s, 10), 10))
  {
    assert !IsWhiteSpace(s[0]);
    NoLeadingSpace(s);
    Unsigned(s);
    DecimalMagnitude(s);
  }

  /**
   * `parseInt` reads back the decimal rendering of any natural number, whatever
   * follows it, provided it does not continue the digits (or turn "0" into "0x").
   */
  lemma ParseIntOfDecimal(n: nat, rest: string)
    requires rest == [] || (!IsDigit(rest[0], 10) && rest[0] != 'x' && rest[0] != 'X')
    ensures ParseIntString(NatToString(n) + rest) == Some(n)
  {
    var ds := NatToString(n);
    var s := ds + rest;
    assert s[0] == ds[0];
    assert |s| >= 2 ==> s[1] != 'x' && s[1] != 'X' by {
      if |s| >= 2 {
        if |ds| >= 2 { assert s[1] == ds[1]; } else { assert s[1] == rest[0]; }
      }
    }
    ParseIntUnsignedDecimal(s);
    DecimalValue(n);
    LeadingDigitsOfDigits(ds, rest, 10);
  }

  /** The digits "2020" are worth 2020. */
  lemma Digits2020()
    ensures forall i :: 0 <= i < |"2020"| ==> IsDigit("2020"[i], 10)
    ensures DigitsValue("2020", 10) == 2020
  {
    assert "2020"[..3] == "202" && "202"[..2] == "20" && "20"[..1] == "2" && "2"[..0] == [];
  }

  /** The texts below as white space, sign, digits and the rest. */
  lemma YearTexts()
    ensures " " + "" + "2020" + "" == " 2020"
    ensures "" + "+" + "2020" + "" == "+2020"
    ensures "" + "" + "2020" + "abc" == "2020abc"
  {
  }

  /** White space and a plus sign in front of a year are skipped. */
  lemma ParseIntSkipsExamples()
    ensures ParseIntString(" 2020") == Some(2020)
    ensures ParseIntString("+2020") == Some(2020)
  {
    Digits2020();
    YearTexts();
    ParseIntDecimal(" ", "", "2020", "");
    ParseIntDecimal("", "+", "2020", "");
  }

  /** Reading stops at the first character that is not a digit. */
  lemma ParseIntStopsExample()
    ensures ParseIntString("2020abc") == Some(2020)
  {
    Digits2020();
    YearTexts();
    ParseIntDecimal("", "", "2020", "abc");
  }

  /** "0x" switches to base 16. */
  lemma ParseIntHexExample()
    ensures ParseIntString("0x7E4") == Some(2020)
  {
    var h := "0x7E4";
    assert TrimStart(h) == h by { NoLeadingSpace(h); }
    assert LeadingDigits(h[2..], 16) == "7E4";
    assert DigitsValue("7E4", 16) == 2020 by {
      assert "7E4"[..2] == "7E" && "7E"[..1] == "7" && "7"[..0] == [];
    }
  }

  /** Text without a leading digit is NaN. */
  lemma ParseIntNaNExample()
    ensures ParseIntString("abc") == None
  {
    assert TrimStart("abc") == "abc" by { NoLeadingSpace("abc"); }
    ParseIntNaN("abc");
  }

  /** The twelve abbreviations are distinct, so `indexOf` recovers the month. */
  lemma MonthsShortDistinct(i: Month, j: Month)
    requires MonthsShort[i] == MonthsShort[j]
    ensures i == j
  {
  }

  /** Parsing a formatted date gives the date back. */
  lemma ParseFormatDate(year: nat, month: Month)
    ensures ParseDate(FormatDate(year, month)) == Some(Date(year, month))
  {
    var ys := NatToString(year);
    var pieces := [MonthsShort[month], ys];
    assert '-' !in ys;
    assert Join(pieces, '-') == FormatDate(year, month);
    SplitJoin(pieces, '-');
    assert MonthPart(FormatDate(year, month)) == MonthsShort[month];
    assert YearPart(FormatDate(year, month)) == Some(ys);
    ParseIntOfDecimal(year, []);
    assert ys + [] == ys;
    var r := ParseDate(FormatDate(year, month));
    ParseDateMeaning(FormatDate(year, month));
    MonthsShortDistinct(r.value.month, month);
  }
}

=== FILE: graph.dfy ===
/**
 * The `ContributionGraph` object: its year range, the raw category data, the set
 * of active category types and the grid of cells it rebuilds from them.
 */
module Graph {
  import opened Wrappers
  import opened Dates
  import opened Levels
  import opened Aggregation

  const DefaultStartYear := 1990
  const DefaultEndYear := 2025

  /** `configured || fallback`: a missing year, or 0, keeps the fallback. */
  function ConfiguredYear(configured: Option<int>, fallback: int): (year: int)
    ensures year == fallback || (configured.Some? && year == configured.value != 0)
    ensures configured.Some? && configured.value != 0 ==> year == configured.value
  {
    match configured
    case Some(y) => if y != 0 then y else fallback
    case None => fallback
  }

  /** The distinct category types present in the data. */
  function Types(cats: seq<Category>): set<string> {
    set c | c in cats :: c.kind
  }

  /** Whether (year, month) `c` is a cell of a graph spanning `startYear` to `endYear`. */
  predicate InGrid(startYear: int, endYear: int, c: (int, int)) {
    startYear <= c.0 <= endYear && 0 <= c.1 < 12
  }

  /** Walking the months in (year, month) order is walking them in `AbsMonth` order. */
  lemma MonthOrder(y1: int, m1: Month, y2: int, m2: Month)
    ensures (y1 < y2 || (y1 == y2 && m1 <= m2)) <==> y1 * 12 + m1 <= y2 * 12 + m2
    ensures y1 * 12 + m1 == y2 * 12 + m2 <==> y1 == y2 && m1 == m2
  {
    if y1 < y2 { assert y1 * 12 + m1 < (y1 + 1) * 12 <= y2 * 12; }
    if y1 > y2 { assert y2 * 12 + m2 < (y2 + 1) * 12 <= y1 * 12; }
  }

  /** While the walk's guard holds, month (`y`, `m`) is not after (`endY`, `endM`)... */
  lemma NotPast(y: int, m: Month, endY: int, endM: Month)
    requires y < endY || (y == endY && m <= endM)
    ensures y * 12 + m <= endY * 12 + endM
  {
    MonthOrder(y, m, endY, endM);
  }

  /** ... and once it fails, the walk is past the end. */
  lemma Past(y: int, m: Month, endY: int, endM: Month)
    requires !(y < endY || (y == endY && m <= endM))
    ensures y * 12 + m > endY * 12 + endM
  {
    MonthOrder(y, m, endY, endM);
  }

  /** Every cell of the year range is present, and no other. */
  ghost predicate GridShape(grid: map<(int, int), Cell>, startYear: int, endYear: int) {
    forall c :: c in grid <==> InGrid(startYear, endYear, c)
  }

  /** Every cell lists one record per contribution and has a level from 0 to 9. */
  ghost predicate CellsConsistent(grid: map<(int, int), Cell>) {
    forall c :: c in grid ==> grid[c].count == |grid[c].activities| && grid[c].level <= 9
  }

  /**
   * `grid` is `before` after the walk over months `first` to `last` has reached
   * month `upto` (exclusive): every visited cell holds one more record `a`.
   */
  ghost predicate WalkedUpTo(grid: map<(int, int), Cell>, before: map<(int, int), Cell>,
                             first: int, upto: int, last: int, a: Activity)
  {
    grid.Keys == before.Keys &&
    forall c :: c in grid ==>
      grid[c] == if first <= c.0 * 12 + c.1 < upto && c.0 * 12 + c.1 <= last then AddActivity(before[c], a) else before[c]
  }

  /** A step of the walk inside the graph's years: month `cur`, that is (`year`, `month`), gets its record. */
  lemma Visit(grid: map<(int, int), Cell>, before: map<(int, int), Cell>,
              startYear: int, endYear: int, first: int, cur: int, last: int, a: Activity, year: int, month: Month)
    requires GridShape(before, startYear, endYear) && startYear <= year <= endYear
    requires WalkedUpTo(grid, before, first, cur, last, a)
    requires cur == year * 12 + month && first <= cur <= last
    ensures WalkedUpTo(grid[(year, month) := AddActivity(grid[(year, month)], a)], before, first, cur + 1, last, a)
  {
    forall c | c in grid
      ensures c.0 * 12 + c.1 == cur <==> c == (year, month)
    {
      MonthOrder(c.0, c.1, year, month);
    }
  }

  /** A step of the walk outside the graph's years changes no cell. */
  lemma Pass(grid: map<(int, int), Cell>, before: map<(int, int), Cell>,
             startYear: int, endYear: int, first: int, cur: int, last: int, a: Activity, year: int, month: Month)
    requires GridShape(before, startYear, endYear) && !(startYear <= year <= endYear)
    requires WalkedUpTo(grid, before, first, cur, last, a)
    requires cur == year * 12 + month && first <= cur <= last
    ensures WalkedUpTo(grid, before, first, cur + 1, last, a)
  {
    forall c | c in grid
      ensures c.0 * 12 + c.1 != cur
    {
      MonthOrder(c.0, c.1, year, month);
    }
  }

  /**
   * A range wholly before `startYear` or wholly after `endYear` covers no cell of the
   * grid, so `AddContributions` leaves every cell as it was.
   */
  lemma OutOfYearsCoversNoCell(grid: map<(int, int), Cell>, r: DateRange, startYear: int, endYear: int)
    requires GridShape(grid, startYear, endYear)
    requires ResolveStart(r).Some? && ResolveEnd(r, endYear).Some?
    requires ResolveEnd(r, endYear).value.year < startYear || ResolveStart(r).value.year > endYear
    ensures forall c :: c in grid ==> !Covers(r, endYear, c.0, c.1)
  {
    if ResolveEnd(r, endYear).value.year < startYear {
      BeforeYearsCoversNoCell(r, startYear, endYear);
    } else {
      AfterYearsCoversNoCell(r, startYear, endYear);
    }
  }

  /**
   * Once the walk has gone past the end of range `r`, exactly the cells `r` covers
   * hold the new record, and the grid is as well-formed as it was.
   */
  lemma WalkDone(grid: map<(int, int), Cell>, before: map<(int, int), Cell>, cur: int, a: Activity,
                 r: DateRange, startYear: int, endYear: int)
    requires GridShape(before, startYear, endYear) && CellsConsistent(before)
    requires ResolveStart(r).Some? && ResolveEnd(r, endYear).Some?
    requires WalkedUpTo(grid, before, AbsMonth(ResolveStart(r).value), cur, AbsMonth(ResolveEnd(r, endYear).value), a)
    requires cur > AbsMonth(ResolveEnd(r, endYear).value)
    ensures GridShape(grid, startYear, endYear) && CellsConsistent(grid)
    ensures forall c :: c in grid ==>
      grid[c] == if Covers(r, endYear, c.0, c.1) then AddActivity(before[c], a) else before[c]
  {
  }

  // ---------------------------------------------------------------------------
  // Progress of the replay in generateContributionData
  // ---------------------------------------------------------------------------

  /** The reset grid has received the records of categories `cats`. */
  ghost predicate ReplayedCategories(grid: map<(int, int), Cell>, cats: seq<Category>, filters: set<string>, endYear: int) {
    forall c :: c in grid ==> grid[c] == Accumulated(CategoriesActivities(cats, filters, endYear, c.0, c.1))
  }

  /** ... and then those of `items` of a category of type `kind`. */
  ghost predicate ReplayedItems(grid: map<(int, int), Cell>, cats: seq<Category>, filters: set<string>, endYear: int,
                                items: seq<Item>, kind: string)
  {
    forall c :: c in grid ==>
      grid[c] == Accumulated(CategoriesActivities(cats, filters, endYear, c.0, c.1) +
                             ItemsActivities(items, kind, endYear, c.0, c.1))
  }

  /** ... and then those of ranges `rs` of an item called `name`. */
  ghost predicate ReplayedRanges(grid: map<(int, int), Cell>, cats: seq<Category>, filters: set<string>, endYear: int,
                                 items: seq<Item>, kind: string, rs: seq<DateRange>, name: string)
  {
    forall c :: c in grid ==>
      grid[c] == Accumulated(CategoriesActivities(cats, filters, endYear, c.0, c.1) +
                             ItemsActivities(items, kind, endYear, c.0, c.1) +
                             RangesActivities(rs, name, kind, endYear, c.0, c.1))
  }

  lemma StartItems(grid: map<(int, int), Cell>, cats: seq<Category>, filters: set<string>, endYear: int, kind: string)
    requires ReplayedCategories(grid, cats, filters, endYear)
    ensures ReplayedItems(grid, cats, filters, endYear, [], kind)
  {
    forall c | c in grid ensures ItemsActivities([], kind, endYear, c.0, c.1) == [] {}
    assert forall s: seq<Activity> :: s + [] == s;
  }

  lemma StartRanges(grid: map<(int, int), Cell>, cats: seq<Category>, filters: set<string>, endYear: int,
                    items: seq<Item>, kind: string, name: string)
    requires ReplayedItems(grid, cats, filters, endYear, items, kind)
    ensures ReplayedRanges(grid, cats, filters, endYear, items, kind, [], name)
  {
    forall c | c in grid ensures RangesActivities([], name, kind, endYear, c.0, c.1) == [] {}
    assert forall s: seq<Activity> :: s + [] == s;
  }

  /** A cell that received `acts` and then, if `covered`, record `a`, has received `acts + added`. */
  lemma AccumulateStep(cell: Cell, acts: seq<Activity>, added: seq<Activity>, a: Activity, covered: bool)
    requires cell == Accumulated(acts)
    requires added == if covered then [a] else []
    ensures (if covered then AddActivity(cell, a) else cell) == Accumulated(acts + added)
  {
    if !covered { assert acts + added == acts; }
  }

  lemma Regroup(cell: Cell, x: seq<Activity>, y: seq<Activity>, z: seq<Activity>)
    requires cell == Accumulated(x + y + z)
    ensures cell == Accumulated(x + (y + z))
  {
    assert x + y + z == x + (y + z);
  }

  /** Replaying range `rs[k]` adds its record to the cells it covers. */
  lemma RangeStep(before: map<(int, int), Cell>, after: map<(int, int), Cell>,
                  cats: seq<Category>, filters: set<string>, endYear: int,
                  items: seq<Item>, kind: string, rs: seq<DateRange>, k: nat, name: string)
    requires k < |rs|
    requires ReplayedRanges(before, cats, filters, endYear, items, kind, rs[..k], name)
    requires after.Keys == before.Keys
    requires forall c :: c in after ==>
      after[c] == if Covers(rs[k], endYear, c.0, c.1) then AddActivity(before[c], Activity(name, kind)) else before[c]
    ensures ReplayedRanges(after, cats, filters, endYear, items, kind, rs[..k + 1], name)
  {
    RangesActivitiesStep(rs, k, name, kind, endYear);
    forall c | c in after
      ensures after[c] == Accumulated(CategoriesActivities(cats, filters, endYear, c.0, c.1) +
                                      ItemsActivities(items, kind, endYear, c.0, c.1) +
                                      RangesActivities(rs[..k + 1], name, kind, endYear, c.0, c.1))
    {
      var x := CategoriesActivities(cats, filters, endYear, c.0, c.1) + ItemsActivities(items, kind, endYear, c.0, c.1);
      var y := RangesActivities(rs[..k], name, kind, endYear, c.0, c.1);
      var z := RangeActivities(rs[k], name, kind, endYear, c.0, c.1);
      AccumulateStep(before[c], x + y, z, Activity(name, kind), Covers(rs[k], endYear, c.0, c.1));
      Regroup(after[c], x, y, z);
    }
  }

  /** Once all ranges of `items[j]` are replayed, so is the item. */
  lemma EndRanges(grid: map<(int, int), Cell>, cats: seq<Category>, filters: set<string>, endYear: int,
                  items: seq<Item>, j: nat, kind: string)
    requires j < |items|
    requires ReplayedRanges(grid, cats, filters, endYear, items[..j], kind, items[j].dates, items[j].name)
    ensures ReplayedItems(grid, cats, filters, endYear, items[..j + 1], kind)
  {
    ItemsActivitiesStep(items, j, kind, endYear);
    forall c | c in grid
      ensures grid[c] == Accumulated(CategoriesActivities(cats, filters, endYear, c.0, c.1) +
                                     ItemsActivities(items[..j + 1], kind, endYear, c.0, c.1))
    {
      var x := CategoriesActivities(cats, filters, endYear, c.0, c.1);
      var y := ItemsActivities(items[..j], kind, endYear, c.0, c.1);
      var z := RangesActivities(items[j].dates, items[j].name, kind, endYear, c.0, c.1);
      Regroup(grid[c], x, y, z);
    }
  }

  /** Once all items of active category `cats[i]` are replayed, so is the category. */
  lemma EndItems(grid: map<(int, int), Cell>, cats: seq<Category>, i: nat, filters: set<string>, endYear: int)
    requires i < |cats| && cats[i].kind in filters
    requires ReplayedItems(grid, cats[..i], filters, endYear, cats[i].data, cats[i].kind)
    ensures ReplayedCategories(grid, cats[..i + 1], filters, endYear)
  {
    CategoriesActivitiesStep(cats, i, filters, endYear);
  }

  /** A category whose type is not active is passed over. */
  lemma SkipCategory(grid: map<(int, int), Cell>, cats: seq<Category>, i: nat, filters: set<string>, endYear: int)
    requires i < |cats| && cats[i].kind !in filters
    requires ReplayedCategories(grid, cats[..i], filters, endYear)
    ensures ReplayedCategories(grid, cats[..i + 1], filters, endYear)
  {
    CategoriesActivitiesStep(cats, i, filters, endYear);
    assert forall s: seq<Activity> :: s + [] == s;
  }

  // ---------------------------------------------------------------------------
  // The reset and level passes of generateContributionData
  // ---------------------------------------------------------------------------

  /** Whether cell `c` comes before (`year`, `month`) in the row-by-row order of the passes. */
  predicate Before(c: (int, int), year: int, month: int) {
    c.0 < year || (c.0 == year && c.1 < month)
  }

  /** The reset pass has emptied every cell of the range before (`year`, `month`). */
  ghost predicate ResetUpTo(grid: map<(int, int), Cell>, startYear: int, endYear: int, year: int, month: int) {
    (forall c :: c in grid ==> InGrid(startYear, endYear, c)) &&
    forall c :: InGrid(startYear, endYear, c) && Before(c, year, month) ==> c in grid && grid[c] == EmptyCell
  }

  /** Emptying cell (`year`, `month`) moves the reset pass one cell on... */
  lemma ResetStep(grid: map<(int, int), Cell>, startYear: int, endYear: int, year: int, month: int)
    requires ResetUpTo(grid, startYear, endYear, year, month)
    requires startYear <= year <= endYear && 0 <= month < 12
    ensures ResetUpTo(grid[(year, month) := EmptyCell], startYear, endYear, year, month + 1)
  {
  }

  /** ... and a finished row is the start of the next. */
  lemma ResetRow(grid: map<(int, int), Cell>, startYear: int, endYear: int, year: int)
    requires ResetUpTo(grid, startYear, endYear, year, 12)
    ensures ResetUpTo(grid, startYear, endYear, year + 1, 0)
  {
  }

  /** An all-empty grid is consistent and has received no record yet. */
  lemma ResetDone(grid: map<(int, int), Cell>, cats: seq<Category>, filters: set<string>, startYear: int, endYear: int)
    requires forall c :: c in grid ==> grid[c] == EmptyCell
    ensures CellsConsistent(grid)
    ensures ReplayedCategories(grid, cats[..0], filters, endYear)
  {
    assert cats[..0] == [];
  }

  /** The level pass has given every cell before (`year`, `month`) the level of its count. */
  ghost predicate LevelledUpTo(grid: map<(int, int), Cell>, counted: map<(int, int), Cell>, year: int, month: int) {
    grid.Keys == counted.Keys &&
    forall c :: c in grid ==>
      grid[c] == if Before(c, year, month) then counted[c].(level := Level(counted[c].count)) else counted[c]
  }

  /** Levelling cell (`year`, `month`) moves the level pass one cell on... */
  lemma LevelStep(grid: map<(int, int), Cell>, counted: map<(int, int), Cell>, year: int, month: int)
    requires LevelledUpTo(grid, counted, year, month) && (year, month) in grid
    ensures LevelledUpTo(grid[(year, month) := grid[(year, month)].(level := Level(grid[(year, month)].count))],
                         counted, year, month + 1)
  {
  }

  /** ... and a finished row is the start of the next, the months being 0 to 11. */
  lemma LevelRow(grid: map<(int, int), Cell>, counted: map<(int, int), Cell>, startYear: int, endYear: int, year: int)
    requires GridShape(counted, startYear, endYear)
    requires LevelledUpTo(grid, counted, year, 12)
    ensures LevelledUpTo(grid, counted, year + 1, 0)
  {
  }

  /** The grid as generated: every cell of the range, each the aggregation of the active categories. */
  ghost predicate Generated(grid: map<(int, int), Cell>, cats: seq<Category>, filters: set<string>,
                            startYear: int, endYear: int)
  {
    GridShape(grid, startYear, endYear) && CellsConsistent(grid) &&
    forall c :: c in grid ==> grid[c] == ExpectedCell(cats, filters, endYear, c.0, c.1)
  }

  /** Once every record is replayed and every cell levelled, the grid is the generated one. */
  lemma LevelsDone(grid: map<(int, int), Cell>, counted: map<(int, int), Cell>, cats: seq<Category>,
                   filters: set<string>, startYear: int, endYear: int)
    requires GridShape(counted, startYear, endYear)
    requires ReplayedCategories(counted, cats, filters, endYear)
    requires LevelledUpTo(grid, counted, endYear + 1, 0)
    ensures Generated(grid, cats, filters, startYear, endYear)
  {
    forall c | c in grid
      ensures grid[c] == ExpectedCell(cats, filters, endYear, c.0, c.1)
    {
      CategoriesActivitiesCount(cats, filters, endYear, c.0, c.1);
    }
  }

  /** There is one generated grid for given data, filters and years. */
  lemma GeneratedUnique(a: map<(int, int), Cell>, b: map<(int, int), Cell>, cats: seq<Category>,
                        filters: set<string>, startYear: int, endYear: int)
    requires Generated(a, cats, filters, startYear, endYear)
    requires Generated(b, cats, filters, startYear, endYear)
    ensures a == b
  {
  }

  class ContributionGraph {
    var startYear: int
    var endYear: int
    /** `contributionData[year][month]`, keyed here by the pair (year, month). */
    var contributionData: map<(int, int), Cell>
    var rawData: seq<Category>
    var activeFilters: set<string>

    /** Every cell of the year range is present and no other; each lists one record per contribution. */
    ghost predicate Valid()
      reads this
    {
      GridShape(contributionData, startYear, endYear) && CellsConsistent(contributionData)
    }

    /** The grid is the aggregation of the raw data under the active filters. */
    ghost predicate Current()
      reads this
    {
      Generated(contributionData, rawData, activeFilters, startYear, endYear)
    }

    /**
     * The graph once its data is loaded: the configured years (or the defaults),
     * the categories, every type active, and the grid generated.
     */
    constructor (configStartYear: Option<int>, configEndYear: Option<int>, data: seq<Category>)
      ensures startYear == ConfiguredYear(configStartYear, DefaultStartYear)
      ensures endYear == ConfiguredYear(configEndYear, DefaultEndYear)
      ensures rawData == data && activeFilters == Types(data)
      ensures Current()
    {
      startYear := ConfiguredYear(configStartYear, DefaultStartYear);
      endYear := ConfiguredYear(configEndYear, DefaultEndYear);
      rawData := data;
      activeFilters := Types(data);
      contributionData := map[];
      new;
      GenerateContributionData();
    }

    /**
     * `addContributions`: one contribution of activity `activityName` of type
     * `activityType` in every month of the range that lies within the graph's years.
     */
    method AddContributions(startDate: string, endDate: Option<string>, activityName: string, activityType: string)
      requires Valid()
      modifies this`contributionData
      ensures Valid()
      ensures contributionData.Keys == old(contributionData).Keys
      ensures forall c :: c in contributionData ==>
        contributionData[c] ==
          if Covers(DateRange(startDate, endDate), endYear, c.0, c.1)
          then AddActivity(old(contributionData)[c], Activity(activityName, activityType))
          else old(contributionData)[c]
      ensures ParseDate(startDate).None? ==> contributionData == old(contributionData)
    {
      ghost var before := contributionData;
      var start := ParseDate(startDate);
      var end := if endDate.None? then Some(Date(endYear, 11)) else ParseDate(endDate.value);
      ghost var range := DateRange(startDate, endDate);
      assert start == ResolveStart(range) && end == ResolveEnd(range, endYear);
      if start.None? || end.None? {
        UnparsedRangeCoversNothing(range, endYear);
        return;
      }
      var activity := Activity(activityName, activityType);
      var currentYear := start.value.year;
      var currentMonth: int := start.value.month;
      var grid := contributionData;
      ghost var first := AbsMonth(start.value);
      ghost var last := AbsMonth(end.value);
      ghost var cur := first;
      while currentYear < end.value.year || (currentYear == end.value.year && currentMonth <= end.value.month)
        invariant 0 <= currentMonth < 12 && cur == currentYear * 12 + currentMonth
        invariant first <= cur && (cur <= last + 1 || cur == first)
        invariant WalkedUpTo(grid, before, first, cur, last, activity)
        decreases last - cur
      {
        NotPast(currentYear, currentMonth, end.value.year, end.value.month);
        if currentYear >= startYear && currentYear <= endYear {
          Visit(grid, before, startYear, endYear, first, cur, last, activity, currentYear, currentMonth);
          var data := grid[(currentYear, currentMonth)];
          grid := grid[(currentYear, currentMonth) := AddActivity(data, activity)];
        } else {
          Pass(grid, before, startYear, endYear, first, cur, last, activity, currentYear, currentMonth);
        }
        currentMonth := currentMonth + 1;
        if currentMonth > 11 {
          currentMonth := 0;
          currentYear := currentYear + 1;
        }
        cur := cur + 1;
      }
      Past(currentYear, currentMonth, end.value.year, end.value.month);
      WalkDone(grid, before, cur, activity, range, startYear, endYear);
      contributionData := grid;
    }

    /**
     * `generateContributionData`: reset every cell, replay every date range of every
     * active category, then give every cell the level of its count.
     */
    method GenerateContributionData()
      requires forall c :: c in contributionData ==> InGrid(startYear, endYear, c)
      modifies this`contributionData
      ensures Current()
      ensures old(Current()) ==> contributionData == old(contributionData)
    {
      ghost var previous := contributionData;
      ResetGrid();
      ReplayData();
      ghost var counted := contributionData;
      ComputeLevels();
      LevelsDone(contributionData, counted, rawData, activeFilters, startYear, endYear);
      if old(Current()) {
        GeneratedUnique(previous, contributionData, rawData, activeFilters, startYear, endYear);
      }
    }

    /** The first pass of `generateContributionData`: every cell of the range, empty. */
    method ResetGrid()
      requires forall c :: c in contributionData ==> InGrid(startYear, endYear, c)
      modifies this`contributionData
      ensures GridShape(contributionData, startYear, endYear)
      ensures forall c :: c in contributionData ==> contributionData[c] == EmptyCell
    {
      var year := startYear;
      while year <= endYear
        invariant startYear <= year && (year <= endYear + 1 || year == startYear)
        invariant ResetUpTo(contributionData, startYear, endYear, year, 0)
      {
        var month := 0;
        while month < 12
          invariant 0 <= month <= 12
          invariant ResetUpTo(contributionData, startYear, endYear, year, month)
        {
          ResetStep(contributionData, startYear, endYear, year, month);
          contributionData := contributionData[(year, month) := EmptyCell];
          month := month + 1;
        }
        ResetRow(contributionData, startYear, endYear, year);
        year := year + 1;
      }
    }

    /**
     * The second pass: `addContributions` for every date range of every item of
     * every active category, in the order of the data.
     */
    method ReplayData()
      requires GridShape(contributionData, startYear, endYear)
      requires forall c :: c in contributionData ==> contributionData[c] == EmptyCell
      modifies this`contributionData
      ensures Valid()
      ensures ReplayedCategories(contributionData, rawData, activeFilters, endYear)
    {
      ResetDone(contributionData, rawData, activeFilters, startYear, endYear);
      var i := 0;
      while i < |rawData|
        invariant 0 <= i <= |rawData|
        invariant Valid()
        invariant ReplayedCategories(contributionData, rawData[..i], activeFilters, endYear)
      {
        var category := rawData[i];
        if category.kind in activeFilters {
          StartItems(contributionData, rawData[..i], activeFilters, endYear, category.kind);
          assert category.data[..0] == [];
          var j := 0;
          while j < |category.data|
            invariant 0 <= j <= |category.data|
            invariant Valid()
            invariant ReplayedItems(contributionData, rawData[..i], activeFilters, endYear, category.data[..j], category.kind)
          {
            var item := category.data[j];
            StartRanges(contributionData, rawData[..i], activeFilters, endYear, category.data[..j], category.kind, item.name);
            assert item.dates[..0] == [];
            var k := 0;
            while k < |item.dates|
              invariant 0 <= k <= |item.dates|
              invariant Valid()
              invariant ReplayedRanges(contributionData, rawData[..i], activeFilters, endYear,
                                       category.data[..j], category.kind, item.dates[..k], item.name)
            {
              ghost var before := contributionData;
              AddContributions(item.dates[k].start, item.dates[k].end, item.name, category.kind);
              RangeStep(before, contributionData, rawData[..i], activeFilters, endYear,
                        category.data[..j], category.kind, item.dates, k, item.name);
              k := k + 1;
            }
            assert item.dates[..k] == item.dates;
            EndRanges(contributionData, rawData[..i], activeFilters, endYear, category.data, j, category.kind);
            j := j + 1;
          }
          assert category.data[..j] == category.data;
          EndItems(contributionData, rawData, i, activeFilters, endYear);
        } else {
          SkipCategory(contributionData, rawData, i, activeFilters, endYear);
        }
        i := i + 1;
      }
      assert rawData[..i] == rawData;
    }

    /** The third pass: every cell gets the level of its count, and nothing else changes. */
    method ComputeLevels()
      requires GridShape(contributionData, startYear, endYear)
      modifies this`contributionData
      ensures LevelledUpTo(contributionData, old(contributionData), endYear + 1, 0)
    {
      ghost var counted := contributionData;
      var year := startYear;
      while year <= endYear
        invariant startYear <= year && (year <= endYear + 1 || year == startYear)
        invariant LevelledUpTo(contributionData, counted, year, 0)
      {
        var month := 0;
        while month < 12
          invariant 0 <= month <= 12
          invariant LevelledUpTo(contributionData, counted, year, month)
        {
          LevelStep(contributionData, counted, year, month);
          var data := contributionData[(year, month)];
          contributionData := contributionData[(year, month) := data.(level := Level(data.count))];
          month := month + 1;
        }
        LevelRow(contributionData, counted, startYear, endYear, year);
        year := year + 1;
      }
    }

    /**
     * The change handler of a filter checkbox: activate or deactivate one category
     * type, then regenerate the whole grid.
     */
    method OnFilterChange(kind: string, checked: bool)
      requires Valid()
      modifies this`activeFilters, this`contributionData
      ensures activeFilters == if checked then old(activeFilters) + {kind} else old(activeFilters) - {kind}
      ensures Current()
      ensures old(Current()) && !checked && kind in old(activeFilters) ==>
        forall c :: c in contributionData ==>
          contributionData[c].count + CoverCount(rawData, {kind}, endYear, c.0, c.1) == old(contributionData)[c].count
    {
      if checked {
        activeFilters := activeFilters + {kind};
      } else {
        activeFilters := activeFilters - {kind};
      }
      GenerateContributionData();
      forall c | c in contributionData && old(Current()) && !checked && kind in old(activeFilters)
        ensures contributionData[c].count + CoverCount(rawData, {kind}, endYear, c.0, c.1) == old(contributionData)[c].count
      {
        CoverCountSplit(rawData, old(activeFilters), kind, endYear, c.0, c.1);
      }
    }

    /** Unticking a type and ticking it again gives back exactly the grid there was. */
    method UncheckThenCheck(kind: string)
      requires Current() && kind in activeFilters
      modifies this`activeFilters, this`contributionData
      ensures activeFilters == old(activeFilters)
      ensures contributionData == old(contributionData)
    {
      OnFilterChange(kind, false);
      OnFilterChange(kind, true);
      assert activeFilters == old(activeFilters);
    }
  }
}

=== FILE: keynav.dfy ===
/**
 * The focus movement of `handleKeyNavigation`: which square receives the focus
 * after a key press, given the index of the focused square in document order.
 */
module KeyNavigation {

  /** The values of `event.key` the handler reacts to; every other key is `Other`. */
  datatype Key = ArrowLeft | ArrowRight | ArrowUp | ArrowDown | Home | End | Other

  function Max(a: int, b: int): int { if a >= b then a else b }

  function Min(a: int, b: int): int { if a <= b then a else b }

  /**
   * `newIndex` for a press of `key` on square `current` of `n` squares, in a
   * grid whose month rows are `yearsCount` squares long.
   */
  function NextIndex(current: int, key: Key, n: int, yearsCount: int): (next: int)
    requires 0 <= current < n && 0 <= yearsCount
    ensures 0 <= next < n
    ensures key == Home ==> next == 0
    ensures key == End ==> next == n - 1
    ensures key == Other ==> next == current
    ensures key == ArrowLeft || key == ArrowUp ==> next <= current
    ensures key == ArrowRight || key == ArrowDown ==> next >= current
  {
    match key
    case ArrowLeft => Max(0, current - 1)
    case ArrowRight => Min(n - 1, current + 1)
    case ArrowUp => Max(0, current - yearsCount)
    case ArrowDown => Min(n - 1, current + yearsCount)
    case Home => 0
    case End => n - 1
    case Other => current
  }

  // ---------------------------------------------------------------------------
  // The squares in document order: twelve month rows, one square per year in each
  // ---------------------------------------------------------------------------

  /** The position of the square of (`year`, `month`): row `month`, column `year - startYear`. */
  function SquareIndex(startYear: int, endYear: int, year: int, month: int): (i: int)
    requires startYear <= year <= endYear && 0 <= month < 12
    ensures 0 <= i < 12 * (endYear - startYear + 1)
    ensures i % (endYear - startYear + 1) == year - startYear
    ensures i / (endYear - startYear + 1) == month
  {
    var yearsCount := endYear - startYear + 1;
    RowColumn(month, year - startYear, yearsCount);
    month * yearsCount + (year - startYear)
  }

  /** Row `m` and column `k` are recovered from the position `m * w + k` by division. */
  lemma RowColumn(m: int, k: int, w: int)
    requires 0 <= m < 12 && 0 <= k < w
    ensures 0 <= m * w + k < 12 * w
    ensures (m * w + k) % w == k && (m * w + k) / w == m
  {
    var i := m * w + k;
    assert m * w <= 11 * w by { MulMonotone(m, 11, w); }
    var q, r := i / w, i % w;
    assert i == q * w + r && 0 <= r < w;
    // (m - q) * w == r - k lies strictly between -w and w, so m == q
    assert (m - q) * w == r - k by { assert m * w - q * w == (m - q) * w; }
    if m - q >= 1 {
      MulMonotone(1, m - q, w);
    } else if m - q <= -1 {
      MulMonotone(1, q - m, w);
    }
  }

  lemma MulMonotone(a: int, b: int, w: int)
    requires a <= b && 0 <= w
    ensures a * w <= b * w
  {
    assert b * w - a * w == (b - a) * w;
  }

  /** The (year, month) of the square at position `i`. */
  function SquareAt(startYear: int, endYear: int, i: int): (c: (int, int))
    requires startYear <= endYear && 0 <= i < 12 * (endYear - startYear + 1)
    ensures startYear <= c.0 <= endYear && 0 <= c.1 < 12
    ensures SquareIndex(startYear, endYear, c.0, c.1) == i
  {
    var yearsCount := endYear - startYear + 1;
    var month := i / yearsCount;
    assert month < 12 by {
      if month >= 12 { MulMonotone(12, month, yearsCount); }
    }
    (startYear + i % yearsCount, month)
  }

  /** Each square has one position and each position one square. */
  lemma SquareAtIndex(startYear: int, endYear: int, year: int, month: int)
    requires startYear <= year <= endYear && 0 <= month < 12
    ensures SquareAt(startYear, endYear, SquareIndex(startYear, endYear, year, month)) == (year, month)
  {
  }

  // ---------------------------------------------------------------------------
  // What the arrow keys do on the grid
  // ---------------------------------------------------------------------------

  /**
   * ArrowRight moves one year on within the month row; from the last year of a
   * row it moves to the first year of the next month; the last square stays.
   */
  lemma ArrowRightOnGrid(startYear: int, endYear: int, year: int, month: int)
    requires startYear <= year <= endYear && 0 <= month < 12
    ensures var yc := endYear - startYear + 1;
      var next := NextIndex(SquareIndex(startYear, endYear, year, month), ArrowRight, 12 * yc, yc);
      SquareAt(startYear, endYear, next) ==
        if year < endYear then (year + 1, month)
        else if month < 11 then (startYear, month + 1)
        else (year, month)
  {
    var yc := endYear - startYear + 1;
    var i := SquareIndex(startYear, endYear, year, month);
    if year < endYear {
      SquareAtIndex(startYear, endYear, year + 1, month);
    } else if month < 11 {
      assert i + 1 == (month + 1) * yc;
      SquareAtIndex(startYear, endYear, startYear, month + 1);
    } else {
      SquareAtIndex(startYear, endYear, year, month);
    }
  }

  /**
   * ArrowLeft moves one year back within the month row; from the first year of a
   * row it moves to the last year of the previous month; the first square stays.
   */
  lemma ArrowLeftOnGrid(startYear: int, endYear: int, year: int, month: int)
    requires startYear <= year <= endYear && 0 <= month < 12
    ensures var yc := endYear - startYear + 1;
      var next := NextIndex(SquareIndex(startYear, endYear, year, month), ArrowLeft, 12 * yc, yc);
      SquareAt(startYear, endYear, next) ==
        if year > startYear then (year - 1, month)
        else if month > 0 then (endYear, month - 1)
        else (year, month)
  {
    var yc := endYear - startYear + 1;
    var i := SquareIndex(startYear, endYear, year, month);
    if year > startYear {
      SquareAtIndex(startYear, endYear, year - 1, month);
    } else if month > 0 {
      assert i - 1 == (month - 1) * yc + (yc - 1);
      SquareAtIndex(startYear, endYear, endYear, month - 1);
    } else {
      SquareAtIndex(startYear, endYear, year, month);
    }
  }

  /**
   * ArrowDown moves to the same year one month later; from the December row it
   * goes to the very last square, December of the last year.
   */
  lemma ArrowDownOnGrid(startYear: int, endYear: int, year: int, month: int)
    requires startYear <= year <= endYear && 0 <= month < 12
    ensures var yc := endYear - startYear + 1;
      var next := NextIndex(SquareIndex(startYear, endYear, year, month), ArrowDown, 12 * yc, yc);
      SquareAt(startYear, endYear, next) == if month < 11 then (year, month + 1) else (endYear, 11)
  {
    var yc := endYear - startYear + 1;
    var i := SquareIndex(startYear, endYear, year, month);
    if month < 11 {
      assert i + yc == (month + 1) * yc + (year - startYear);
      SquareAtIndex(startYear, endYear, year, month + 1);
    } else {
      assert i + yc >= 12 * yc;
      assert 12 * yc - 1 == 11 * yc + (endYear - startYear);
      SquareAtIndex(startYear, endYear, endYear, 11);
    }
  }

  /**
   * ArrowUp moves to the same year one month earlier; from the January row it
   * goes to the very first square, January of the first year.
   */
  lemma ArrowUpOnGrid(startYear: int, endYear: int, year: int, month: int)
    requires startYear <= year <= endYear && 0 <= month < 12
    ensures var yc := endYear - startYear + 1;
      var next := NextIndex(SquareIndex(startYear, endYear, year, month), ArrowUp, 12 * yc, yc);
      SquareAt(startYear, endYear, next) == if month > 0 then (year, month - 1) else (startYear, 0)
  {
    var yc := endYear - startYear + 1;
    var i := SquareIndex(startYear, endYear, year, month);
    if month > 0 {
      assert i - yc == (month - 1) * yc + (year - startYear);
      SquareAtIndex(startYear, endYear, year, month - 1);
    } else {
      SquareAtIndex(startYear, endYear, startYear, 0);
    }
  }

  /** ArrowLeft undoes ArrowRight everywhere but on the last square. */
  lemma RightThenLeft(current: int, n: int, yearsCount: int)
    requires 0 <= current < n - 1 && 0 <= yearsCount
    ensures NextIndex(NextIndex(current, ArrowRight, n, yearsCount), ArrowLeft, n, yearsCount) == current
  {
  }

  /** ArrowUp undoes ArrowDown everywhere but on the squares whose move down is clamped. */
  lemma DownThenUp(current: int, n: int, yearsCount: int)
    requires 0 <= current && current + yearsCount < n && 0 <= yearsCount
    ensures NextIndex(NextIndex(current, ArrowDown, n, yearsCount), ArrowUp, n, yearsCount) == current
  {
  }
}

=== FILE: levels.dfy ===
/** The intensity level, 0 to 9, that a cell's contribution count is shown with. */
module Levels {

  /** The bucket table applied to every cell once all ranges are counted. */
  function Level(count: nat): (level: nat)
    ensures level <= 9
    ensures level == 0 <==> count == 0
    ensures count <= 5 ==> level == count
  {
    if count == 0 then 0
    else if count == 1 then 1
    else if count == 2 then 2
    else if count == 3 then 3
    else if count == 4 then 4
    else if count == 5 then 5
    else if count <= 7 then 6
    else if count <= 10 then 7
    else if count <= 15 then 8
    else 9
  }

  /** The smallest count of each level from 1 to 9: 1, 2, 3, 4, 5, 6, 8, 11 and 16. */
  const Thresholds: seq<nat> := [1, 2, 3, 4, 5, 6, 8, 11, 16]

  /** How many of the thresholds `ts[i..]` the count reaches. */
  function Reached(ts: seq<nat>, i: nat, count: nat): (n: nat)
    requires i <= |ts|
    ensures n <= |ts| - i
    decreases |ts| - i
  {
    if i == |ts| then 0 else (if ts[i] <= count then 1 else 0) + Reached(ts, i + 1, count)
  }

  /** A count reaches a threshold only when it reaches every smaller one. */
  lemma {:induction false} ReachedMonotone(ts: seq<nat>, i: nat, a: nat, b: nat)
    requires i <= |ts| && a <= b
    ensures Reached(ts, i, a) <= Reached(ts, i, b)
    decreases |ts| - i
  {
    if i < |ts| {
      ReachedMonotone(ts, i + 1, a, b);
    }
  }

  /** The level of a count is the number of bucket thresholds the count reaches. */
  lemma LevelIsThresholdsReached(count: nat)
    ensures Level(count) == Reached(Thresholds, 0, count)
  {
    var ts := Thresholds;
    assert |ts| == 9;
    assert Reached(ts, 8, count) == if 16 <= count then 1 else 0;
    assert Reached(ts, 7, count) == (if 11 <= count then 1 else 0) + Reached(ts, 8, count);
    assert Reached(ts, 6, count) == (if 8 <= count then 1 else 0) + Reached(ts, 7, count);
    assert Reached(ts, 5, count) == (if 6 <= count then 1 else 0) + Reached(ts, 6, count);
    assert Reached(ts, 4, count) == (if 5 <= count then 1 else 0) + Reached(ts, 5, count);
    assert Reached(ts, 3, count) == (if 4 <= count then 1 else 0) + Reached(ts, 4, count);
    assert Reached(ts, 2, count) == (if 3 <= count then 1 else 0) + Reached(ts, 3, count);
    assert Reached(ts, 1, count) == (if 2 <= count then 1 else 0) + Reached(ts, 2, count);
    assert Reached(ts, 0, count) == (if 1 <= count then 1 else 0) + Reached(ts, 1, count);
    // one bucket at a time, so that every comparison with a threshold is decided
    if count == 0 {
    } else if count == 1 {
    } else if count == 2 {
    } else if count == 3 {
    } else if count == 4 {
    } else if count == 5 {
    } else if count <= 7 {
    } else if count <= 10 {
    } else if count <= 15 {
    } else {
    }
  }

  /** More contributions never give a lower level. */
  lemma LevelMonotone(a: nat, b: nat)
    requires a <= b
    ensures Level(a) <= Level(b)
  {
    LevelIsThresholdsReached(a);
    LevelIsThresholdsReached(b);
    ReachedMonotone(Thresholds, 0, a, b);
  }

  /** Level `k` (1 to 9) is shown for exactly the counts from its threshold up to the next one. */
  lemma LevelBucket(count: nat, k: nat)
    requires 1 <= k <= 9
    ensures Level(count) == k <==>
      Thresholds[k - 1] <= count && (k == 9 || count < Thresholds[k])
  {
  }
}

=== FILE: wrappers.dfy ===
/** Optional values: `None` stands for JavaScript's `null`, `undefined` and `NaN`. */
module Wrappers {
  datatype Option<+T> = None | Some(value: T)
}
